=== FILE: README.md ===
# docker-slim profiling core, modelled in Dafny

docker-slim shrinks a "fat" container image. It runs the image once as an
instrumented container, watches what the application touches, and keeps only
that. This project models three parts of the Go master process:

- **`Ipc`** models the channel layer between the master and the sensor inside
  the container (master/inspectors/container/ipc/ipc.go). It covers:
  - how the two sockets are opened: a request/reply command client and a
    subscribe event receiver;
  - the order of the setup calls, which failure closes the socket and which
    leaves it open;
  - the package-level channel state, and its shutdown;
  - `sendCmd` and `getEvt`.
- **`DockerClient`** models the Docker client resolution `New`
  (master/docker/dockerclient/client.go). It covers:
  - the six-way `switch` over the configured host, the TLS flags, the
    certificate directory and the environment snapshot;
  - the certificate files read for the TLS cases;
  - the fatal "no config" default;
  - the `DOCKER_HOST` export.
- **`Profile`** models the profiling session `OnProfile`
  (master/commands/profile.go). The client is built, the image is inspected,
  the instrumented container is started, and the HTTP probe is started
  optionally. The session then waits for the continue-after trigger, stops
  monitoring, shuts the container down, and processes the collected data.
- **`Outcomes`** holds the shared `Option`, `Result` and `Outcome` types. They
  stand for Go's nil values, `(value, error)` pairs and bare `error` returns.

Everything outside the modelled code is an input:
- socket faults, encoder outcomes, and a peer's answer to the k-th send or
  receive;
- unreadable certificate files, and whether the client constructor fails;
- the session steps that fail, and the wait triggers that ever arrive.

`utils.FailOn` and `utils.Fail` end the process. The model therefore ends a
computation with an error value at those points (`Aborted`, `Failure(...)`).
`utils.WarnOn` only records a warning.

Where the code and the behaviour its design describes differ, the model
follows the code:
- `sendCmd` does not retry (see Findings). The corrected model performs the
  retries the two counters and the `> 3` checks were written for: send again
  after a send timeout, then receive again after a receive timeout.
- The design switches the continue-after mode to `probe` whenever HTTP
  probing is requested. The code only switches probing on for the `probe`
  mode and keeps the mode as given. So with probing on, `enter` still waits
  for a line on stdin and `timeout` still waits on the timer; only `signal`
  and `probe` wait on the probe's done channel.
- An unknown continue-after mode exits without shutting the container down.
  So does a failure to create the probe.

## Model

| member | source | states |
|---|---|---|
| Ipc.AsStringInjective | master/inspectors/container/ipc/ipc.go:127 | `string(response)` loses nothing: two byte strings that read as the same string are the same bytes |
| Ipc.ChannelAddr | master/inspectors/container/ipc/ipc.go:18-19 | the address is `tcp://`, the host, `:`, the port, each at its own position |
| Ipc.ChannelAddrSeparatesPorts | master/inspectors/container/ipc/ipc.go:18-19 | for one host, equal addresses mean equal ports, so distinct ports never share a channel |
| Ipc.DefaultAddrsAreLoopback | master/inspectors/container/ipc/ipc.go:52 | the default command address (and the default event address of line 131) is the address built for 127.0.0.1 with port 65501 (65502) |
| Ipc.RunSetup | master/inspectors/container/ipc/ipc.go:55-79 | a setup sequence stops at its first failing call: every earlier call succeeded, the returned error is the failing call's, and with no failure every call was made |
| Ipc.NewCmdClient | master/inspectors/container/ipc/ipc.go:55-79 | the client opens exactly when creation, both 3-second deadlines and the dial succeed. It is then a request socket on `addr` with those deadlines. The error returned is that of the first failing call, and the calls stop there: a creation failure makes no further call, and a deadline or dial failure is followed only by `Close`. A success never closes |
| Ipc.NewEvtChannel | master/inspectors/container/ipc/ipc.go:136-160 | the receiver opens exactly when creation, the 120-second deadline, the dial and the subscription succeed. The error returned is that of the first failing call, and the calls stop there. A deadline or dial failure is followed only by `Close`. A failed subscription returns with the socket left open after every call was made |
| Ipc.InitContainerChannels | master/inspectors/container/ipc/ipc.go:17-36 | both addresses are rebuilt from host and ports, and the event channel is opened first. The command client is attempted only if the event channel opened. It is then opened on the rebuilt command address, the stored command socket is the one it opened, and the call reports its outcome. An event failure leaves the old command socket in place. A command failure leaves the event socket open. The call succeeds exactly when both sockets are set |
| Ipc.ShutdownCmdChannel | master/inspectors/container/ipc/ipc.go:81-86 | a non-nil command socket is closed once and cleared; a nil one closes nothing |
| Ipc.ShutdownEvtChannel | master/inspectors/container/ipc/ipc.go:162-167 | a non-nil event socket is closed once and cleared; a nil one closes nothing |
| Ipc.ShutdownContainerChannels | master/inspectors/container/ipc/ipc.go:46-49 | both sockets end nil; the event socket is closed before the command socket; at most two closes |
| Ipc.ShutdownIsIdempotent | master/inspectors/container/ipc/ipc.go:46-49 | a second shutdown, or a shutdown of never-opened channels, closes nothing and changes nothing |
| Ipc.ShutdownClosesWhatInitOpened | master/inspectors/container/ipc/ipc.go:17-49 | after initialisation, shutdown closes the event socket it opened and then the command socket it opened. If the event channel failed, the command socket held from before is closed instead |
| Ipc.SendCmd | master/inspectors/container/ipc/ipc.go:88-129 | as written: an encoding failure returns before any send, and at most one send and one receive are made, getting the peer's first answers. A send that goes through or times out is followed by the receive. Other send errors are returned. A receive timeout is reported as success with an empty reply; any other receive outcome is reported as `getEvt` reports it, so a reply comes back verbatim and another error is returned |
| Ipc.GetEvtKeepsReplies | master/inspectors/container/ipc/ipc.go:169-177 | `getEvt` loses nothing: two received replies that come back as the same string are the same bytes |
| Ipc.GetEvt | master/inspectors/container/ipc/ipc.go:169-177 | succeeds exactly when the receive does, with the bytes verbatim; otherwise the receive's error, a timeout included |
| Ipc.SendTries | master/inspectors/container/ipc/ipc.go:100-111 | the send retries of the corrected loop: the k-th send gets the peer's k-th answer. Every send but the last timed out, at most four are made, and a timeout is returned only at the fourth. The loop stops with no error exactly when the last send went through. The counter is the number of timeouts |
| Ipc.RecvTries | master/inspectors/container/ipc/ipc.go:113-125 | the receive retries of the corrected loop: the j-th receive gets the peer's j-th answer. Every receive but the last timed out, at most four are made, and a timeout is returned only at the fourth. The loop stops with no error exactly when a reply arrived. The counter is the number of timeouts |
| Ipc.RetryExchange | master/inspectors/container/ipc/ipc.go:93-128 | corrected `sendCmd` on an encoded command. The calls are the encoding, then sends getting the peer's first answers, then receives getting its first replies. Every send but the last and every receive but the last timed out, with at most four of each. Receiving starts exactly when the last send went through. A send error ends the exchange with that error, a fourth timeout of either kind returns that timeout, and otherwise the last reply is returned verbatim. Each counter counts the timeouts of its kind |
| Ipc.SendCmdRetrying | master/inspectors/container/ipc/ipc.go:88-98 | corrected `sendCmd`: an encoding failure returns before any send, and an encoded command goes through the retrying exchange |
| Ipc.UnresponsivePeerIsReportedAsEmptyReply | master/inspectors/container/ipc/ipc.go:100-127 | against a peer where everything times out, the code as written returns success with an empty reply after one send and one receive; the corrected loop returns the send timeout after four sends |
| Ipc.AgreeWithoutTimeouts | master/inspectors/container/ipc/ipc.go:88-129 | when neither the first send nor the first receive times out, the code as written and the corrected loop return the same exchange |
| Ipc.SlowReplyIsRetried | master/inspectors/container/ipc/ipc.go:113-127 | with two receive timeouts before a reply, the corrected loop sends once, receives three times and returns the third reply verbatim, counting two receive timeouts |
| DockerClient.SelectCase | master/docker/dockerclient/client.go:43-88 | the selected case's guard holds and no earlier guard does. There is no case exactly when an explicit host asks for TLS without a certificate directory and the environment names no host |
| DockerClient.ExplicitHostTakesPrecedence | master/docker/dockerclient/client.go:43-64 | an explicit host with TLS and a certificate directory, or without TLS, always selects one of the first three cases |
| DockerClient.EnvTlsOnlyWithoutVerify | master/docker/dockerclient/client.go:66-78 | with no host and a complete TLS environment, the environment's TLS client is used only when verification is off; otherwise the plain environment client is |
| DockerClient.TlsFiles | master/docker/dockerclient/client.go:19-38 | `cert.pem` and `key.pem` are read first, and `ca.pem` exactly when verifying |
| DockerClient.ReadTlsFiles | master/docker/dockerclient/client.go:19-40 | the files read are a non-empty prefix of the fixed order, all of them when none fails. The reads stop at the first unreadable file and report it. Every file before it was readable |
| DockerClient.Plan | master/docker/dockerclient/client.go:43-84 | the construction each case asks for: the three TLS cases build TLS clients, and only case 1 verifies. Cases 1-3 use the configured host, cases 1-2 the configured certificate directory, case 4 both from the environment, case 5 the environment client and case 6 a plain client on the default socket. Only case 6 changes the host |
| DockerClient.New | master/docker/dockerclient/client.go:15-99 | the client is built exactly when a case is selected, all of that case's certificate files can be read and the constructor succeeds, and it is then the selected case's construction. The "no config" error happens under exactly the four conditions. A TLS case reads its files in order up to the first unreadable one, which the error names; the other cases read none, and `ca.pem` is read only for case 1. A read failure comes before the constructor is tried. The host is rewritten only to the default socket, and only when no host is given anywhere. `DOCKER_HOST` is exported, with the final host, exactly when the client was built and the environment had none |
| Profile.ProbeOn | master/commands/profile.go:72-76 | probing is on when the flag asks for it or the mode is `probe`, and off otherwise |
| Profile.SelectWait | master/commands/profile.go:72-102 | an unknown mode is the only failure. `enter` waits for stdin and `timeout` for a timer of the configured seconds. `signal` and `probe` wait on the continue channel, which the probe feeds exactly when probing is on |
| Profile.StartContainer | master/commands/profile.go:36-68 | the container starts exactly when none of the five checked steps fails. The steps taken are always a prefix of the fixed order, and an abort names the failing step, taken last. Every step before it passed or is `PrepareSlimDirs`, which is not checked and so never the cause, so the abort is at the first checked failure. The container run is attempted only when all before it succeeded |
| Profile.ClientStep | master/commands/profile.go:34 | the client stage finishes exactly when `dockerclient.New` builds a client, and otherwise aborts with its fatal error |
| Profile.ProbeStep | master/commands/profile.go:76-81 | without probing nothing happens. With probing, the probe is created and then started, and a creation failure aborts |
| Profile.WaitStep | master/commands/profile.go:83-102 | an unknown mode aborts before any wait. Otherwise the session waits on the selected trigger: it finishes exactly when that trigger fires and otherwise blocks on that very trigger, which is then undelivered and not the timer |
| Profile.TeardownStep | master/commands/profile.go:104-118 | monitoring stops, the container is shut down and its data processed, in that order. A shutdown failure is only a warning, and a processing failure aborts |
| Profile.OnProfile | master/commands/profile.go:20-121 | every session starts by building the Docker client |
| Profile.SessionFinishesExactly | master/commands/profile.go:20-121 | a session finishes exactly when the client is built, every fatal setup step succeeds, the mode is known, the awaited trigger arrives and the container data is processed |
| Profile.FinishedSessionOrder | master/commands/profile.go:34-112 | a finished session took the fixed sequence of steps, with the probe's two steps only when probing. Its only warning is a failed shutdown |
| Profile.FinishedChain | master/commands/profile.go:34-112 | five finished stages whose traces are those of a finished session chain into the full session trace, keeping the teardown's warnings |
| Profile.ArtifactsAreKept | master/commands/profile.go:114-118 | artifact removal never happens |
| Profile.SetupFailureAborts | master/commands/profile.go:36-81 | once the client is built, a failure of any fatal setup step, from the image inspector up to creating a requested probe, aborts the session at a failing step other than `PrepareSlimDirs`, and the container is never shut down |
| Profile.ClientFailureEndsAtOnce | master/commands/profile.go:34-37 | a fatal client error ends the session before any other step |
| Profile.EarlyFailureStartsNoContainer | master/commands/profile.go:36-68 | when a step checked before the container run fails, no container is started |
| Profile.UnknownModeSkipsShutdown | master/commands/profile.go:83-107 | an unknown mode is detected only after the container (and any probe) started, and the container is never shut down |
| Profile.ShutdownIsOnlyWarnedAbout | master/commands/profile.go:104-112 | once the shutdown is attempted, the data is processed as well. The session then either finishes or aborts on that processing |
| Profile.OnlyUndeliveredTriggersBlock | master/commands/profile.go:83-99 | a blocked session blocks on the wait trigger selected for its continue-after mode, and only when that trigger never arrives and is not the timer |
| Profile.ProbeOnlyWhenAsked | master/commands/profile.go:72-81 | the probe is created only when the flag or the `probe` mode asks for it |

## Left out

- Socket I/O: mangos sockets, transports, dialling and deadlines are not executed. Each call is an injected outcome, and the deadlines are recorded as the values set.
- Encoding: `messages.Encode` is an injected `EncodeOutcome`. The message types are not part of this model.
- Ipc.RetryExchange: the command is encoded once, not again on every pass of the loop. `messages.Encode` gives the same bytes for the same command, so every send carries the same payload either way.
- `SendContainerCmd` and `GetContainerEvt` are left out. They only pass the package socket to `sendCmd`/`getEvt`, and their panic on a nil socket is not modelled.
- Logging and printing are left out: `log.*`, `fmt.Print*` and `humanize.Bytes` have no effect on control flow.
- Collaborators of `OnProfile` are reduced to whether each call fails: the image and container inspectors, the HTTP probe and `RemoveArtifacts`. Their arguments and results are not modelled. `PrepareSlimDirs`, `probe.Start` and `FinishMonitoring` return no error that the session checks, so they always succeed in the model.
- Profile.OnProfile: its own contract states only the first step. The session's properties are stated by the lemmas that follow it.
- Blocking waits become whether the trigger ever arrives. A stdin read error counts as the line arriving. Goroutines, signal handling and the probe's done channel are not modelled.
- Profile.SelectWait: the timeout is kept as whole seconds. The `time.Duration` product `time.Second * Timeout` and its int64 overflow are not modelled.
- DockerClient.New: a failing `os.Setenv` is not modelled. It only produces a warning. `filepath.Join` path cleaning is also not modelled: files are named by directory and base name.
- The utils package is not part of this model. `utils.FailOn`/`utils.Fail` are taken to end the process, and `utils.WarnOn` to only log.

## Findings

| source | as written | input that shows it | evidently intended | confidence | as-written member | corrected member |
|---|---|---|---|---|---|---|
| master/inspectors/container/ipc/ipc.go:100-127 | every path through the `for` body returns. A send timeout falls through to `Recv`, and a receive timeout reaches `return string(response), nil`. The `> 3` checks can never fire | a peer whose first `Send` and first `Recv` both time out: the command is reported as delivered, with reply `""` | send the encoded command again after each send timeout, then receive again after each receive timeout. Each counter is separate, and a fourth timeout of a kind is returned | medium, not executed | Ipc.SendCmd (exhibited by Ipc.UnresponsivePeerIsReportedAsEmptyReply) | Ipc.SendCmdRetrying |

=== FILE: dockerclient.dfy ===
/**
  Docker client construction of master/docker/dockerclient/client.go.

  `New` picks the first of six ordered cases whose guard holds over the
  configured host, the two TLS flags, the certificate directory and the
  environment snapshot in the configuration, or fails fatally when none
  does. The client constructors and file reads are not modelled: the
  `World` says which certificate files cannot be read and whether the one
  constructor call fails. A fatal error ends the process, so nothing after
  it happens.
 */
module DockerClient {
  import opened Outcomes

  /** The host `New` falls back to when neither the configuration nor the environment names one. */
  const DefaultHost: string := "unix:///var/run/docker.sock"

  const DockerHostVar: string := "DOCKER_HOST"
  const DockerTlsVerifyVar: string := "DOCKER_TLS_VERIFY"
  const DockerCertPathVar: string := "DOCKER_CERT_PATH"

  /** The fields of `config.DockerClient` that `New` reads. */
  datatype Config = Config(host: string, useTls: bool, verifyTls: bool, tlsCertPath: string, env: map<string, string>)

  /** A Go map index: a missing key reads as the empty string. */
  function Getenv(c: Config, key: string): (v: string)
    ensures key !in c.env ==> v == ""
    ensures key in c.env ==> v == c.env[key]
  {
    if key in c.env then c.env[key] else ""
  }

  /** The six cases of the `switch`, in source order. */
  datatype Case =
    | TlsVerify      // [1] explicit host, TLS, verified
    | TlsNoVerify    // [2] explicit host, TLS, not verified
    | PlainHost      // [3] explicit host without TLS
    | EnvTls         // [4] TLS settings taken from the environment
    | EnvHost        // [5] DOCKER_HOST from the environment
    | DefaultSocket  // [6] the local socket

  /** Position of a case in the `switch`. */
  function Rank(k: Case): nat {
    match k
    case TlsVerify => 1
    case TlsNoVerify => 2
    case PlainHost => 3
    case EnvTls => 4
    case EnvHost => 5
    case DefaultSocket => 6
  }

  /** Each case's guard read on its own, as if it were the only one. */
  predicate Guard(k: Case, c: Config) {
    match k
    case TlsVerify => c.host != "" && c.useTls && c.verifyTls && c.tlsCertPath != ""
    case TlsNoVerify => c.host != "" && c.useTls && !c.verifyTls && c.tlsCertPath != ""
    case PlainHost => c.host != "" && !c.useTls
    case EnvTls =>
      && c.host == ""
      && !c.verifyTls
      && Getenv(c, DockerTlsVerifyVar) == "1"
      && Getenv(c, DockerCertPathVar) != ""
      && Getenv(c, DockerHostVar) != ""
    case EnvHost => Getenv(c, DockerHostVar) != ""
    case DefaultSocket => c.host == "" && Getenv(c, DockerHostVar) == ""
  }

  /**
    The `switch`: the first case whose guard holds, or `None` for the
    "no config for Docker client" default.
   */
  function SelectCase(c: Config): (k: Option<Case>)
    ensures k.Some? ==> Guard(k.value, c)
    ensures k.Some? ==> forall j: Case :: Rank(j) < Rank(k.value) ==> !Guard(j, c)
    ensures k.None? <==> forall j: Case :: !Guard(j, c)
    // no configuration exactly when an explicit host asks for TLS without a certificate directory
    // and the environment names no host
    ensures k.None? <==> c.host != "" && c.useTls && c.tlsCertPath == "" && Getenv(c, DockerHostVar) == ""
  {
    if Guard(TlsVerify, c) then Some(TlsVerify)
    else if Guard(TlsNoVerify, c) then Some(TlsNoVerify)
    else if Guard(PlainHost, c) then Some(PlainHost)
    else if Guard(EnvTls, c) then Some(EnvTls)
    else if Guard(EnvHost, c) then Some(EnvHost)
    else if Guard(DefaultSocket, c) then Some(DefaultSocket)
    else None
  }

  /**
    An explicit host wins over the environment whenever it comes with TLS and
    a certificate directory, or without TLS.
   */
  lemma ExplicitHostTakesPrecedence(c: Config)
    requires c.host != ""
    requires (c.useTls && c.tlsCertPath != "") || !c.useTls
    ensures SelectCase(c).Some?
    ensures SelectCase(c).value in {TlsVerify, TlsNoVerify, PlainHost}
  {
  }

  /**
    The environment's TLS settings are used only when no host is configured
    and verification is off; with verification on, the same environment
    falls through to the plain environment client.
   */
  lemma EnvTlsOnlyWithoutVerify(c: Config)
    requires c.host == ""
    requires Getenv(c, DockerTlsVerifyVar) == "1"
    requires Getenv(c, DockerCertPathVar) != "" && Getenv(c, DockerHostVar) != ""
    ensures SelectCase(c) == Some(if c.verifyTls then EnvHost else EnvTls)
  {
  }

  /** How the client is built. */
  datatype Construction =
    | TlsClient(host: string, certPath: string, verify: bool)  // NewVersionedTLSClientFromBytes
    | PlainClient(host: string)                              // NewClient
    | EnvClient                                              // NewClientFromEnv

  /** A file inside a certificate directory. */
  datatype FileRef = FileRef(dir: string, name: string)

  /** The files `newTLSClient` reads, in order: the CA file only when verifying. */
  function TlsFiles(certPath: string, verify: bool): (files: seq<FileRef>)
    ensures |files| == if verify then 3 else 2
    ensures files[0] == FileRef(certPath, "cert.pem") && files[1] == FileRef(certPath, "key.pem")
    ensures FileRef(certPath, "ca.pem") in files <==> verify
  {
    [FileRef(certPath, "cert.pem"), FileRef(certPath, "key.pem")]
    + if verify then [FileRef(certPath, "ca.pem")] else []
  }

  /** The environment `New` runs in: the unreadable files and whether the client constructor fails. */
  datatype World = World(unreadable: set<FileRef>, constructorFails: bool)

  datatype Fatal = NoConfig | ReadFailed(file: FileRef) | ConstructFailed

  /** The files read and the first one that could not be. */
  datatype TlsLoad = TlsLoad(filesRead: seq<FileRef>, failed: Option<FileRef>)

  /** The reads of `newTLSClient`, stopping at the first failure. */
  function ReadTlsFiles(certPath: string, verify: bool, unreadable: set<FileRef>): (r: TlsLoad)
    ensures 0 < |r.filesRead| <= |TlsFiles(certPath, verify)|
    ensures r.filesRead == TlsFiles(certPath, verify)[..|r.filesRead|]
    ensures r.failed.None? ==> r.filesRead == TlsFiles(certPath, verify)
    ensures r.failed.None? <==> forall f :: f in TlsFiles(certPath, verify) ==> f !in unreadable
    ensures r.failed.Some? ==> r.failed.value == r.filesRead[|r.filesRead| - 1] && r.failed.value in unreadable
    ensures forall i :: 0 <= i < |r.filesRead| - 1 ==> r.filesRead[i] !in unreadable
  {
    var cert := FileRef(certPath, "cert.pem");
    var key := FileRef(certPath, "key.pem");
    var ca := FileRef(certPath, "ca.pem");
    if cert in unreadable then TlsLoad([cert], Some(cert))
    else if key in unreadable then TlsLoad([cert, key], Some(key))
    else if !verify then TlsLoad([cert, key], None)
    else if ca in unreadable then TlsLoad([cert, key, ca], Some(ca))
    else TlsLoad([cert, key, ca], None)
  }

  /**
    What `New` leaves behind: the client or the fatal error, the files it
    read, `config.Host` afterwards, and the value exported as DOCKER_HOST
    (if any).
   */
  datatype Resolution = Resolution(client: Result<Construction, Fatal>, filesRead: seq<FileRef>, host: string, exported: Option<string>)

  /** The construction each case asks for, and the value `config.Host` has after it. */
  function Plan(k: Case, c: Config): (r: (Construction, string))
    // only the default socket rewrites the host
    ensures r.1 == if k == DefaultSocket then DefaultHost else c.host
    // the three TLS cases, and only they, build a TLS client; only the first verifies
    ensures r.0.TlsClient? <==> k in {TlsVerify, TlsNoVerify, EnvTls}
    ensures r.0.TlsClient? ==> (r.0.verify <==> k == TlsVerify)
    ensures r.0.EnvClient? <==> k == EnvHost
    // an explicit host is used as given, with the configured certificate directory
    ensures k in {TlsVerify, TlsNoVerify, PlainHost} ==> r.0.host == c.host
    ensures k in {TlsVerify, TlsNoVerify} ==> r.0.certPath == c.tlsCertPath
    // the environment TLS case takes both the host and the directory from the environment
    ensures k == EnvTls ==> r.0.host == Getenv(c, DockerHostVar) && r.0.certPath == Getenv(c, DockerCertPathVar)
    ensures k == DefaultSocket ==> r.0 == PlainClient(DefaultHost)
  {
    match k
    case TlsVerify => (TlsClient(c.host, c.tlsCertPath, true), c.host)
    case TlsNoVerify => (TlsClient(c.host, c.tlsCertPath, false), c.host)
    case PlainHost => (PlainClient(c.host), c.host)
    case EnvTls => (TlsClient(Getenv(c, DockerHostVar), Getenv(c, DockerCertPathVar), false), c.host)
    case EnvHost => (EnvClient, c.host)
    case DefaultSocket => (PlainClient(DefaultHost), DefaultHost)
  }

  /** `New`: select the case, build the client, then export DOCKER_HOST if the environment had none. */
  function New(c: Config, w: World): (r: Resolution)
    // success exactly when a case is selected, its certificate files can all be read and the constructor succeeds
    ensures r.client.Success? <==>
              && SelectCase(c).Some?
              && !w.constructorFails
              && var p := Plan(SelectCase(c).value, c).0;
                 (p.TlsClient? ==> forall f :: f in TlsFiles(p.certPath, p.verify) ==> f !in w.unreadable)
    ensures r.client.Success? ==> r.client.value == Plan(SelectCase(c).value, c).0
    ensures SelectCase(c).Some? ==> r.host == Plan(SelectCase(c).value, c).1
    // a TLS case reads its files in order up to the first unreadable one; the other cases read none
    ensures SelectCase(c).Some? && Plan(SelectCase(c).value, c).0.TlsClient? ==>
              var p := Plan(SelectCase(c).value, c).0;
              r.filesRead == ReadTlsFiles(p.certPath, p.verify, w.unreadable).filesRead
    // a read failure is reported before the constructor is tried
    ensures r.client == Failure(ConstructFailed) ==> w.constructorFails && forall f :: f in r.filesRead ==> f !in w.unreadable
    ensures r.client == Failure(NoConfig) <==>
              c.host != "" && c.useTls && c.tlsCertPath == "" && Getenv(c, DockerHostVar) == ""
    // only the first case verifies the server's certificate
    ensures r.client.Success? && r.client.value.TlsClient? && r.client.value.verify ==>
              SelectCase(c) == Some(TlsVerify)
    ensures r.client.Success? && SelectCase(c) == Some(EnvTls) ==>
              r.client.value == TlsClient(Getenv(c, DockerHostVar), Getenv(c, DockerCertPathVar), false)
    // certificate files are read only for the three TLS cases, the CA file only for the verifying one
    ensures r.filesRead != [] ==> SelectCase(c).Some? && SelectCase(c).value in {TlsVerify, TlsNoVerify, EnvTls}
    ensures (exists f :: f in r.filesRead && f.name == "ca.pem") ==> SelectCase(c) == Some(TlsVerify)
    ensures r.client.Failure? && r.client.error.ReadFailed? ==>
              r.filesRead != [] && r.client.error.file == r.filesRead[|r.filesRead| - 1] && r.client.error.file in w.unreadable
    // config.Host is rewritten only to the default socket, only when no host is given anywhere
    ensures r.host != c.host ==> c.host == "" && Getenv(c, DockerHostVar) == "" && r.host == DefaultHost
    ensures c.host == "" && Getenv(c, DockerHostVar) == "" ==> r.host == DefaultHost
    // DOCKER_HOST is exported, as the resulting host, exactly when New succeeds and the environment had none
    ensures r.exported.Some? <==> r.client.Success? && Getenv(c, DockerHostVar) == ""
    ensures r.exported.Some? ==> r.exported.value == r.host && r.host != ""
  {
    match SelectCase(c)
    case None => Resolution(Failure(NoConfig), [], c.host, None)
    case Some(k) =>
      var (construction, host) := Plan(k, c);
      var load := if construction.TlsClient? then ReadTlsFiles(construction.certPath, construction.verify, w.unreadable)
                  else TlsLoad([], None);
      var client :=
        if load.failed.Some? then Failure(ReadFailed(load.failed.value))
        else if w.constructorFails then Failure(ConstructFailed)
        else Success(construction);
      var exported := if client.Success? && Getenv(c, DockerHostVar) == "" then Some(host) else None;
      Resolution(client, load.filesRead, host, exported)
  }
}

=== FILE: ipc.dfy ===
/**
  The sensor IPC channel layer of master/inspectors/container/ipc/ipc.go.

  The orchestrator talks to the in-container sensor over two sockets: a
  request/reply "command" client and a subscribe "event" receiver. The
  mangos library calls are not modelled; every call that can fail is an
  oracle input instead: a map of `Faults` for socket setup, an
  `EncodeOutcome` for `messages.Encode`, and a `Peer` that answers the
  k-th `Send` and the k-th `Recv` on the command socket.

  The package-level variables `cmdChannelAddr`, `evtChannelAddr`,
  `cmdChannel` and `evtChannel` are gathered into one `Channels` value that
  the operations take and return.
 */
module Ipc {
  import opened Outcomes

  newtype byte = b: int | 0 <= b < 256

  type Bytes = seq<byte>

  /** Go's `string(b)`: one character per byte, nothing decoded or dropped. */
  function AsString(b: Bytes): (s: string)
    ensures |s| == |b|
    ensures forall i :: 0 <= i < |b| ==> s[i] as int == b[i] as int
  {
    seq(|b|, i requires 0 <= i < |b| => (b[i] as int) as char)
  }

  // ---------------------------------------------------------------------------
  // Addresses and socket options
  // ---------------------------------------------------------------------------

  const DefaultCmdChannelAddr: string := "tcp://127.0.0.1:65501"
  const DefaultEvtChannelAddr: string := "tcp://127.0.0.1:65502"

  /** Deadlines, in seconds, set on the two sockets. */
  const CmdSendDeadline: nat := 3
  const CmdRecvDeadline: nat := 3
  const EvtRecvDeadline: nat := 120

  /** `fmt.Sprintf("tcp://%v:%v", host, port)` */
  function ChannelAddr(host: string, port: string): (addr: string)
    ensures |addr| == 7 + |host| + |port|
    ensures addr[..6] == "tcp://"
    ensures addr[6..6 + |host|] == host
    ensures addr[6 + |host|] == ':'
    ensures addr[7 + |host|..] == port
  {
    "tcp://" + host + ":" + port
  }

  /** The defaults are the addresses built for the loopback host and the ports 65501 and 65502. */
  lemma DefaultAddrsAreLoopback()
    ensures ChannelAddr("127.0.0.1", "65501") == DefaultCmdChannelAddr
    ensures ChannelAddr("127.0.0.1", "65502") == DefaultEvtChannelAddr
  {
  }

  /** For one host, distinct ports give distinct addresses, so the two channels never share one. */
  lemma ChannelAddrSeparatesPorts(host: string, p: string, q: string)
    requires ChannelAddr(host, p) == ChannelAddr(host, q)
    ensures p == q
  {
    assert p == ChannelAddr(host, p)[7 + |host|..];
  }

  // ---------------------------------------------------------------------------
  // Opening a socket
  // ---------------------------------------------------------------------------

  /** Errors as compared by the source: the two mangos timeouts, and everything else. */
  datatype Err = ErrSendTimeout | ErrRecvTimeout | ErrOther(reason: string)

  datatype Role = ReqClient | SubReceiver

  /** The mangos calls made while opening a socket. */
  datatype SockCall =
    | NewSocket(role: Role)
    | SetSendDeadline(seconds: nat)
    | SetRecvDeadline(seconds: nat)
    | AddTcpTransport
    | Dial(addr: string)
    | Subscribe(topic: string)
    | Close

  /** The fallible calls that fail during one opening, with the error each returns. */
  type Faults = map<SockCall, Err>

  /** An open socket and the options it was configured with. */
  datatype Socket = Socket(role: Role, addr: string, sendDeadline: Option<nat>, recvDeadline: nat, subscribed: bool)

  /**
    One call of an opening sequence: whether it returns an error at all, and
    whether the source closes the socket when it does.
   */
  datatype SetupCall = SetupCall(call: SockCall, fallible: bool, closeOnFailure: bool)

  predicate Fails(s: SetupCall, faults: Faults) {
    s.fallible && s.call in faults
  }

  /** How far an opening sequence got: the number of calls made, and the error that stopped it. */
  datatype Setup = Setup(attempted: nat, failure: Option<Err>)

  /** Makes the calls of `plan` from index `from` on, stopping at the first one that fails. */
  function RunSetup(plan: seq<SetupCall>, faults: Faults, from: nat): (r: Setup)
    requires from <= |plan|
    ensures from <= r.attempted <= |plan|
    ensures r.failure.None? ==> r.attempted == |plan|
    ensures r.failure.Some? ==>
              from < r.attempted
              && Fails(plan[r.attempted - 1], faults)
              && r.failure.value == faults[plan[r.attempted - 1].call]
    ensures forall j :: from <= j < r.attempted && (r.failure.None? || j < r.attempted - 1) ==> !Fails(plan[j], faults)
    decreases |plan| - from
  {
    if from == |plan| then Setup(from, None)
    else if Fails(plan[from], faults) then Setup(from + 1, Some(faults[plan[from].call]))
    else RunSetup(plan, faults, from + 1)
  }

  function Calls(plan: seq<SetupCall>): (calls: seq<SockCall>)
    ensures |calls| == |plan|
    ensures forall i :: 0 <= i < |plan| ==> calls[i] == plan[i].call
  {
    seq(|plan|, i requires 0 <= i < |plan| => plan[i].call)
  }

  /** The socket an opening produced (or its error), and the calls it made in order. */
  datatype Opening = Opening(socket: Result<Socket, Err>, calls: seq<SockCall>)

  function SocketOf(o: Opening): Option<Socket> {
    if o.socket.Success? then Some(o.socket.value) else None
  }

  function Open(plan: seq<SetupCall>, faults: Faults, socket: Socket): (o: Opening)
  {
    var r := RunSetup(plan, faults, 0);
    var made := Calls(plan[..r.attempted]);
    match r.failure
    case None => Opening(Success(socket), made)
    case Some(e) => Opening(Failure(e), made + if plan[r.attempted - 1].closeOnFailure then [Close] else [])
  }

  function CmdClientPlan(addr: string): seq<SetupCall> {
    [ SetupCall(NewSocket(ReqClient), true, false),
      SetupCall(SetSendDeadline(CmdSendDeadline), true, true),
      SetupCall(SetRecvDeadline(CmdRecvDeadline), true, true),
      SetupCall(AddTcpTransport, false, false),
      SetupCall(Dial(addr), true, true) ]
  }

  /** `newCmdClient`: a request socket with 3-second send and receive deadlines, dialled to `addr`. */
  function NewCmdClient(addr: string, faults: Faults): (o: Opening)
    ensures o.socket.Success? <==>
              && NewSocket(ReqClient) !in faults
              && SetSendDeadline(CmdSendDeadline) !in faults
              && SetRecvDeadline(CmdRecvDeadline) !in faults
              && Dial(addr) !in faults
    ensures o.socket.Success? ==>
              && o.socket.value == Socket(ReqClient, addr, Some(CmdSendDeadline), CmdRecvDeadline, false)
              && o.calls == Calls(CmdClientPlan(addr))
    ensures o.socket.Failure? ==> o.socket.error in faults.Values
    ensures |o.calls| > 0 && o.calls[0] == NewSocket(ReqClient)
    // every failure after the socket exists closes it; a creation failure has nothing to close
    ensures o.socket.Failure? ==> (o.calls[|o.calls| - 1] == Close <==> NewSocket(ReqClient) !in faults)
    ensures Close in o.calls ==> o.socket.Failure?
    // each check returns the first error, after exactly the calls before it
    ensures NewSocket(ReqClient) in faults ==>
              o == Opening(Failure(faults[NewSocket(ReqClient)]), [NewSocket(ReqClient)])
    ensures NewSocket(ReqClient) !in faults && SetSendDeadline(CmdSendDeadline) in faults ==>
              o == Opening(Failure(faults[SetSendDeadline(CmdSendDeadline)]),
                           [NewSocket(ReqClient), SetSendDeadline(CmdSendDeadline), Close])
    ensures NewSocket(ReqClient) !in faults && SetSendDeadline(CmdSendDeadline) !in faults
            && SetRecvDeadline(CmdRecvDeadline) in faults ==>
              o == Opening(Failure(faults[SetRecvDeadline(CmdRecvDeadline)]),
                           [NewSocket(ReqClient), SetSendDeadline(CmdSendDeadline), SetRecvDeadline(CmdRecvDeadline), Close])
    ensures NewSocket(ReqClient) !in faults && SetSendDeadline(CmdSendDeadline) !in faults
            && SetRecvDeadline(CmdRecvDeadline) !in faults && Dial(addr) in faults ==>
              o == Opening(Failure(faults[Dial(addr)]),
                           [NewSocket(ReqClient), SetSendDeadline(CmdSendDeadline), SetRecvDeadline(CmdRecvDeadline),
                            AddTcpTransport, Dial(addr), Close])
  {
    CmdSetupStops(addr, faults);
    Open(CmdClientPlan(addr), faults, Socket(ReqClient, addr, Some(CmdSendDeadline), CmdRecvDeadline, false))
  }

  /** Where the command client's setup stops: after all calls, or at the deadline it could not set. */
  lemma CmdSetupStops(addr: string, faults: Faults)
    ensures var plan := CmdClientPlan(addr);
            var r := RunSetup(plan, faults, 0);
            && (r.failure.None? ==> !Fails(plan[0], faults) && !Fails(plan[1], faults) && !Fails(plan[2], faults) && !Fails(plan[4], faults))
            && (!Fails(plan[0], faults) && Fails(plan[1], faults) ==>
                  r == Setup(2, Some(faults[plan[1].call])) && plan[..2] == [plan[0], plan[1]])
            && (!Fails(plan[0], faults) && !Fails(plan[1], faults) && Fails(plan[2], faults) ==>
                  r == Setup(3, Some(faults[plan[2].call])) && plan[..3] == [plan[0], plan[1], plan[2]])
  {
  }

  function EvtChannelPlan(addr: string): seq<SetupCall> {
    [ SetupCall(NewSocket(SubReceiver), true, false),
      SetupCall(SetRecvDeadline(EvtRecvDeadline), true, true),
      SetupCall(AddTcpTransport, false, false),
      SetupCall(Dial(addr), true, true),
      SetupCall(Subscribe(""), true, false) ]
  }

  /**
    `newEvtChannel`: a subscribe socket with a 120-second receive deadline,
    dialled to `addr` and subscribed to every topic.
   */
  function NewEvtChannel(addr: string, faults: Faults): (o: Opening)
    ensures o.socket.Success? <==>
              && NewSocket(SubReceiver) !in faults
              && SetRecvDeadline(EvtRecvDeadline) !in faults
              && Dial(addr) !in faults
              && Subscribe("") !in faults
    ensures o.socket.Success? ==>
              && o.socket.value == Socket(SubReceiver, addr, None, EvtRecvDeadline, true)
              && o.calls == Calls(EvtChannelPlan(addr))
    ensures o.socket.Failure? ==> o.socket.error in faults.Values
    ensures |o.calls| > 0 && o.calls[0] == NewSocket(SubReceiver)
    ensures Close in o.calls ==> o.socket.Failure?
    // a failure to set, dial or transport-configure closes the socket ...
    ensures o.socket.Failure? && NewSocket(SubReceiver) !in faults && o.calls[|o.calls| - 1] != Subscribe("") ==>
              o.calls[|o.calls| - 1] == Close
    // ... but a failed subscription returns with the socket still open
    ensures o.socket.Failure? && o.calls[|o.calls| - 1] == Subscribe("") ==>
              Subscribe("") in faults && Close !in o.calls && o.calls == Calls(EvtChannelPlan(addr))
    ensures o.socket.Failure? && NewSocket(SubReceiver) in faults ==> o.calls == [NewSocket(SubReceiver)]
    // each check returns the first error, after exactly the calls before it
    ensures NewSocket(SubReceiver) in faults ==>
              o == Opening(Failure(faults[NewSocket(SubReceiver)]), [NewSocket(SubReceiver)])
    ensures NewSocket(SubReceiver) !in faults && SetRecvDeadline(EvtRecvDeadline) in faults ==>
              o == Opening(Failure(faults[SetRecvDeadline(EvtRecvDeadline)]),
                           [NewSocket(SubReceiver), SetRecvDeadline(EvtRecvDeadline), Close])
    ensures NewSocket(SubReceiver) !in faults && SetRecvDeadline(EvtRecvDeadline) !in faults && Dial(addr) in faults ==>
              o == Opening(Failure(faults[Dial(addr)]),
                           [NewSocket(SubReceiver), SetRecvDeadline(EvtRecvDeadline), AddTcpTransport, Dial(addr), Close])
    ensures NewSocket(SubReceiver) !in faults && SetRecvDeadline(EvtRecvDeadline) !in faults && Dial(addr) !in faults
            && Subscribe("") in faults ==>
              o == Opening(Failure(faults[Subscribe("")]),
                           [NewSocket(SubReceiver), SetRecvDeadline(EvtRecvDeadline), AddTcpTransport, Dial(addr), Subscribe("")])
  {
    EvtSetupStops(addr, faults);
    Open(EvtChannelPlan(addr), faults, Socket(SubReceiver, addr, None, EvtRecvDeadline, true))
  }

  /** Where the event channel's setup stops: after all calls, at the deadline, or at the dial. */
  lemma EvtSetupStops(addr: string, faults: Faults)
    ensures var plan := EvtChannelPlan(addr);
            var r := RunSetup(plan, faults, 0);
            && (r.failure.None? ==> !Fails(plan[0], faults) && !Fails(plan[1], faults) && !Fails(plan[3], faults) && !Fails(plan[4], faults))
            && (r.failure.Some? && r.attempted == 5 ==> plan[..r.attempted] == plan)
            && (!Fails(plan[0], faults) && Fails(plan[1], faults) ==>
                  r == Setup(2, Some(faults[plan[1].call])) && plan[..2] == [plan[0], plan[1]])
            && (!Fails(plan[0], faults) && !Fails(plan[1], faults) && Fails(plan[3], faults) ==>
                  r == Setup(4, Some(faults[plan[3].call])) && plan[..4] == [plan[0], plan[1], plan[2], plan[3]])
  {
  }

  // ---------------------------------------------------------------------------
  // The package's channel state
  // ---------------------------------------------------------------------------

  /** The package-level addresses and sockets; `None` is a nil socket. */
  datatype Channels = Channels(cmdAddr: string, evtAddr: string, cmd: Option<Socket>, evt: Option<Socket>)

  /** The state before any call: default addresses and no sockets. */
  const Unopened := Channels(DefaultCmdChannelAddr, DefaultEvtChannelAddr, None, None)

  /** The result of `InitContainerChannels`; `cmdOpening` is `None` when the command client was never attempted. */
  datatype Init = Init(channels: Channels, result: Outcome<Err>, evtOpening: Opening, cmdOpening: Option<Opening>)

  /**
    `InitContainerChannels`: both addresses are rebuilt from the host and
    ports, the event channel is opened first, and the first failure is
    returned without opening anything further or closing what was opened.
   */
  function InitContainerChannels(st: Channels, host: string, cmdPort: string, evtPort: string,
                                 evtFaults: Faults, cmdFaults: Faults): (r: Init)
    ensures r.channels.cmdAddr == ChannelAddr(host, cmdPort)
    ensures r.channels.evtAddr == ChannelAddr(host, evtPort)
    ensures r.evtOpening == NewEvtChannel(ChannelAddr(host, evtPort), evtFaults)
    ensures r.result.Pass? <==> r.channels.cmd.Some? && r.channels.evt.Some?
    ensures r.result.Pass? ==> r.channels.cmd.value.role == ReqClient && r.channels.evt.value.role == SubReceiver
    // the command client is attempted only once the event channel is open
    ensures r.cmdOpening.Some? <==> r.evtOpening.socket.Success?
    ensures r.evtOpening.socket.Failure? ==>
              && r.result == Fail(r.evtOpening.socket.error)
              && r.channels.evt.None?
              && r.channels.cmd == st.cmd
    ensures r.evtOpening.socket.Success? ==> r.channels.evt == Some(r.evtOpening.socket.value)
    // the command client is the one `newCmdClient` opens at the command address, and is what the state keeps
    ensures r.cmdOpening.Some? ==>
              && r.cmdOpening.value == NewCmdClient(ChannelAddr(host, cmdPort), cmdFaults)
              && r.channels.cmd == SocketOf(r.cmdOpening.value)
              && r.result == r.cmdOpening.value.socket.ToOutcome()
    ensures r.cmdOpening.Some? && r.cmdOpening.value.socket.Failure? ==>
              && r.result == Fail(r.cmdOpening.value.socket.error)
              && r.channels.cmd.None?
              && r.channels.evt.Some?
  {
    var cmdAddr := ChannelAddr(host, cmdPort);
    var evtAddr := ChannelAddr(host, evtPort);
    var evt := NewEvtChannel(evtAddr, evtFaults);
    var afterEvt := Channels(cmdAddr, evtAddr, st.cmd, SocketOf(evt));
    if evt.socket.Failure? then
      Init(afterEvt, Fail(evt.socket.error), evt, None)
    else
      var cmd := NewCmdClient(cmdAddr, cmdFaults);
      Init(afterEvt.(cmd := SocketOf(cmd)), cmd.socket.ToOutcome(), evt, Some(cmd))
  }

  /** A shutdown's resulting state and the sockets it closed, in order. */
  datatype Shutdown = Shutdown(channels: Channels, closed: seq<Socket>)

  /** `shutdownCmdChannel`: closes a non-nil command socket, then clears it. */
  function ShutdownCmdChannel(st: Channels): (r: Shutdown)
    ensures r.channels == st.(cmd := None)
    ensures |r.closed| <= 1
    ensures r.closed == [] <==> st.cmd.None?
    ensures forall s :: s in r.closed ==> st.cmd == Some(s)
  {
    match st.cmd
    case None => Shutdown(st, [])
    case Some(s) => Shutdown(st.(cmd := None), [s])
  }

  /** `shutdownEvtChannel`: closes a non-nil event socket, then clears it. */
  function ShutdownEvtChannel(st: Channels): (r: Shutdown)
    ensures r.channels == st.(evt := None)
    ensures |r.closed| <= 1
    ensures r.closed == [] <==> st.evt.None?
    ensures forall s :: s in r.closed ==> st.evt == Some(s)
  {
    match st.evt
    case None => Shutdown(st, [])
    case Some(s) => Shutdown(st.(evt := None), [s])
  }

  /** `ShutdownContainerChannels`: the event channel first, then the command channel. */
  function ShutdownContainerChannels(st: Channels): (r: Shutdown)
    ensures r.channels == st.(cmd := None, evt := None)
    ensures r.closed == ShutdownEvtChannel(st).closed + ShutdownCmdChannel(st).closed
    ensures |r.closed| <= 2
  {
    var e := ShutdownEvtChannel(st);
    var c := ShutdownCmdChannel(e.channels);
    Shutdown(c.channels, e.closed + c.closed)
  }

  /** A second shutdown closes nothing and changes nothing; so does shutting down channels never opened. */
  lemma ShutdownIsIdempotent(st: Channels)
    ensures var once := ShutdownContainerChannels(st);
            ShutdownContainerChannels(once.channels) == Shutdown(once.channels, [])
    ensures ShutdownContainerChannels(Unopened) == Shutdown(Unopened, [])
  {
  }

  function Listed(s: Option<Socket>): seq<Socket> {
    if s.Some? then [s.value] else []
  }

  /**
    Shutting down after `InitContainerChannels` closes the event socket it
    opened, then the command socket it opened; when the event channel failed,
    the command socket held from before is the one closed.
   */
  lemma ShutdownClosesWhatInitOpened(st: Channels, host: string, cmdPort: string, evtPort: string,
                                     evtFaults: Faults, cmdFaults: Faults)
    ensures var init := InitContainerChannels(st, host, cmdPort, evtPort, evtFaults, cmdFaults);
            var down := ShutdownContainerChannels(init.channels);
            && down.closed == Listed(SocketOf(init.evtOpening))
                              + (if init.cmdOpening.Some? then Listed(SocketOf(init.cmdOpening.value)) else Listed(st.cmd))
            && down.channels.cmd.None? && down.channels.evt.None?
  {
  }

  // ---------------------------------------------------------------------------
  // Commands and events
  // ---------------------------------------------------------------------------

  datatype EncodeOutcome = Encoded(data: Bytes) | EncodeFailed(err: Err)
  datatype SendOutcome = Sent | SendFailed(err: Err)
  datatype RecvOutcome = Received(data: Bytes) | RecvFailed(err: Err)

  /** The peer on the command socket: the outcome of the k-th `Send` and of the k-th `Recv`, counting from 0. */
  datatype Peer = Peer(send: nat -> SendOutcome, recv: nat -> RecvOutcome)

  /** The calls `sendCmd` makes, in order. */
  datatype Call = Encode | Send(payload: Bytes, sent: SendOutcome) | Recv(received: RecvOutcome)

  /**
    What `sendCmd` returns, the calls it made, how many of them were sends,
    and its two timeout counters when it returned.
   */
  datatype Exchange = Exchange(reply: Result<string, Err>, calls: seq<Call>, sends: int, sendTimeouts: int, recvTimeouts: int)

  /** The source aborts once a timeout counter exceeds this bound. */
  const TimeoutRetries: nat := 3

  /**
    `sendCmd` as written. Every path through the body of its `for` loop
    returns, so the loop runs once: at most one `Send` and one `Recv`, a
    send timeout falls through to `Recv`, and a receive timeout is reported
    as success with an empty reply. The `> 3` checks are kept and cannot fire.
   */
  function SendCmd(enc: EncodeOutcome, peer: Peer): (x: Exchange)
    ensures enc.EncodeFailed? ==> x.reply == Failure(enc.err) && x.calls == [Encode]
    ensures enc.Encoded? ==> |x.calls| >= 2 && x.calls[..2] == [Encode, Send(enc.data, peer.send(0))]
    ensures |x.calls| <= 3
    ensures x.sendTimeouts <= 1 && x.recvTimeouts <= 1
    // the only errors returned are the encoder's and non-timeout transport errors
    ensures x.reply.Failure? ==>
              || enc.EncodeFailed?
              || (x.calls[|x.calls| - 1] == Send(enc.data, SendFailed(x.reply.error)) && x.reply.error != ErrSendTimeout)
              || (x.calls[|x.calls| - 1] == Recv(RecvFailed(x.reply.error)) && x.reply.error != ErrRecvTimeout)
    ensures enc.Encoded? && peer.send(0) == SendFailed(ErrSendTimeout) ==> x.calls[|x.calls| - 1] == Recv(peer.recv(0))
    ensures enc.Encoded? && peer.send(0).SendFailed? && peer.send(0) != SendFailed(ErrSendTimeout) ==>
              x.reply == Failure(peer.send(0).err) && |x.calls| == 2
    ensures x.sends == if enc.Encoded? then 1 else 0
    // after a send that went through or timed out, the peer's first answer to a receive is awaited
    ensures enc.Encoded? && (peer.send(0) == Sent || peer.send(0) == SendFailed(ErrSendTimeout)) ==>
              x.calls == [Encode, Send(enc.data, peer.send(0)), Recv(peer.recv(0))]
    // a receive timeout is reported as an empty reply; any other receive outcome as getEvt reports it
    ensures |x.calls| == 3 ==>
              x.calls[2].Recv?
              && x.reply == if x.calls[2].received == RecvFailed(ErrRecvTimeout) then Success("") else GetEvt(x.calls[2].received)
    ensures Recv(RecvFailed(ErrRecvTimeout)) in x.calls ==> x.reply == Success("")
    ensures x.reply.Success? ==>
              |x.calls| == 3 && x.calls[2].Recv?
              && (x.calls[2].received.Received? ==> x.reply.value == AsString(x.calls[2].received.data))
  {
    match enc
    case EncodeFailed(e) => Exchange(Failure(e), [Encode], 0, 0, 0)
    case Encoded(data) =>
      var sendOut := peer.send(0);
      var sendTimeouts := if sendOut == SendFailed(ErrSendTimeout) then 1 else 0;
      var sendCalls := [Encode, Send(data, sendOut)];
      if sendOut.SendFailed? && sendOut.err != ErrSendTimeout then
        Exchange(Failure(sendOut.err), sendCalls, 1, sendTimeouts, 0)
      else if sendOut.SendFailed? && sendTimeouts > TimeoutRetries then
        Exchange(Failure(ErrSendTimeout), sendCalls, 1, sendTimeouts, 0)
      else
        var recvOut := peer.recv(0);
        var recvTimeouts := if recvOut == RecvFailed(ErrRecvTimeout) then 1 else 0;
        var calls := sendCalls + [Recv(recvOut)];
        if recvOut.RecvFailed? && recvOut.err != ErrRecvTimeout then
          Exchange(Failure(recvOut.err), calls, 1, sendTimeouts, recvTimeouts)
        else if recvOut.RecvFailed? && recvTimeouts > TimeoutRetries then
          Exchange(Failure(ErrRecvTimeout), calls, 1, sendTimeouts, recvTimeouts)
        else
          Exchange(Success(AsString(if recvOut.Received? then recvOut.data else [])), calls, 1, sendTimeouts, recvTimeouts)
  }

  /** `getEvt`: one `Recv`, its bytes returned verbatim, any error (a timeout included) passed through. */
  function GetEvt(recv: RecvOutcome): (r: Result<string, Err>)
    ensures r.Success? <==> recv.Received?
    ensures r.Success? ==> |r.value| == |recv.data| && forall i :: 0 <= i < |recv.data| ==> r.value[i] as int == recv.data[i] as int
    ensures r.Failure? ==> r.error == recv.err
  {
    match recv
    case Received(data) => Success(AsString(data))
    case RecvFailed(e) => Failure(e)
  }

  /** Two byte strings that read as the same string are the same bytes: nothing is lost in conversion. */
  lemma AsStringInjective(a: Bytes, b: Bytes)
    requires AsString(a) == AsString(b)
    ensures a == b
  {
  }

  /** Distinct replies from the sensor reach the caller as distinct strings. */
  lemma GetEvtKeepsReplies(d1: Bytes, d2: Bytes)
    requires GetEvt(Received(d1)) == GetEvt(Received(d2))
    ensures d1 == d2
  {
    AsStringInjective(d1, d2);
  }

  // ---------------------------------------------------------------------------
  // sendCmd with the bounded retries its counters were written for
  // ---------------------------------------------------------------------------

  /** The calls a retry loop made, its timeout counter when it stopped, and the error it stopped with, if any. */
  datatype Tries = Tries(calls: seq<Call>, timeouts: nat, failure: Option<Err>)

  /** The calls of `n` sends of `data` that get the peer's answers from its `from`-th on. */
  function Sends(data: Bytes, peer: Peer, from: nat, n: nat): (r: seq<Call>)
    ensures |r| == n
    ensures forall i :: 0 <= i < n ==> r[i] == Send(data, peer.send(from + i))
    decreases n
  {
    if n == 0 then [] else [Send(data, peer.send(from))] + Sends(data, peer, from + 1, n - 1)
  }

  /** The calls of `n` receives that get the peer's answers from its `from`-th on. */
  function Recvs(peer: Peer, from: nat, n: nat): (r: seq<Call>)
    ensures |r| == n
    ensures forall i :: 0 <= i < n ==> r[i] == Recv(peer.recv(from + i))
    decreases n
  {
    if n == 0 then [] else [Recv(peer.recv(from))] + Recvs(peer, from + 1, n - 1)
  }

  /**
    The send half of the corrected loop: the encoded command is sent again
    after each send timeout, and the timeout is returned once the counter
    exceeds 3. `k` timeouts have been counted so far, so the next send is
    the peer's `k`-th.
   */
  function SendTries(data: Bytes, peer: Peer, k: nat): (t: Tries)
    requires k <= TimeoutRetries
    ensures 0 < |t.calls| <= TimeoutRetries + 1 - k
    ensures t.calls == Sends(data, peer, k, |t.calls|)
    ensures forall i :: k <= i < k + |t.calls| - 1 ==> peer.send(i) == SendFailed(ErrSendTimeout)
    ensures t.failure.None? <==> peer.send(k + |t.calls| - 1) == Sent
    ensures t.failure.Some? ==> peer.send(k + |t.calls| - 1) == SendFailed(t.failure.value)
    ensures peer.send(k + |t.calls| - 1) == SendFailed(ErrSendTimeout) ==> k + |t.calls| == TimeoutRetries + 1
    ensures t.timeouts == k + |t.calls| - (if peer.send(k + |t.calls| - 1) == SendFailed(ErrSendTimeout) then 0 else 1)
    decreases TimeoutRetries - k
  {
    var out := peer.send(k);
    if out == SendFailed(ErrSendTimeout) && k < TimeoutRetries then
      var rest := SendTries(data, peer, k + 1);
      Tries([Send(data, out)] + rest.calls, rest.timeouts, rest.failure)
    else if out.SendFailed? then
      Tries([Send(data, out)], if out == SendFailed(ErrSendTimeout) then k + 1 else k, Some(out.err))
    else
      Tries([Send(data, out)], k, None)
  }

  /**
    The receive half of the corrected loop: after a send that went through,
    the reply is awaited again after each receive timeout, and the timeout
    is returned once the counter exceeds 3. The next receive is the peer's
    `j`-th.
   */
  function RecvTries(peer: Peer, j: nat): (t: Tries)
    requires j <= TimeoutRetries
    ensures 0 < |t.calls| <= TimeoutRetries + 1 - j
    ensures t.calls == Recvs(peer, j, |t.calls|)
    ensures forall i :: j <= i < j + |t.calls| - 1 ==> peer.recv(i) == RecvFailed(ErrRecvTimeout)
    ensures t.failure.None? <==> peer.recv(j + |t.calls| - 1).Received?
    ensures t.failure.Some? ==> peer.recv(j + |t.calls| - 1) == RecvFailed(t.failure.value)
    ensures peer.recv(j + |t.calls| - 1) == RecvFailed(ErrRecvTimeout) ==> j + |t.calls| == TimeoutRetries + 1
    ensures t.timeouts == j + |t.calls| - (if peer.recv(j + |t.calls| - 1) == RecvFailed(ErrRecvTimeout) then 0 else 1)
    decreases TimeoutRetries - j
  {
    var out := peer.recv(j);
    if out == RecvFailed(ErrRecvTimeout) && j < TimeoutRetries then
      var rest := RecvTries(peer, j + 1);
      Tries([Recv(out)] + rest.calls, rest.timeouts, rest.failure)
    else if out.RecvFailed? then
      Tries([Recv(out)], if out == RecvFailed(ErrRecvTimeout) then j + 1 else j, Some(out.err))
    else
      Tries([Recv(out)], j, None)
  }

  /**
    The exchange of an encoded command under bounded retries: sent until the
    peer accepts it or the fourth send timeout, then received until a reply
    arrives or the fourth receive timeout. Any other error is returned at
    once, and a reply is returned verbatim.
   */
  function RetryExchange(data: Bytes, peer: Peer): (x: Exchange)
    ensures 1 <= x.sends <= TimeoutRetries + 1 && x.sends < |x.calls| <= x.sends + TimeoutRetries + 2
    // the encoding, then the sends getting the peer's first answers, then the receives getting its first replies
    ensures x.calls == [Encode] + Sends(data, peer, 0, x.sends) + Recvs(peer, 0, |x.calls| - 1 - x.sends)
    // every send but the last timed out, and so did every receive but the last
    ensures forall i :: 0 <= i < x.sends - 1 ==> peer.send(i) == SendFailed(ErrSendTimeout)
    ensures forall j :: 0 <= j < |x.calls| - 2 - x.sends ==> peer.recv(j) == RecvFailed(ErrRecvTimeout)
    // receiving starts exactly when the last send went through
    ensures |x.calls| > 1 + x.sends <==> peer.send(x.sends - 1) == Sent
    // a send error ends the exchange with that error; a timeout only at the fourth
    ensures |x.calls| == 1 + x.sends ==> peer.send(x.sends - 1).SendFailed? && x.reply == Failure(peer.send(x.sends - 1).err)
    ensures peer.send(x.sends - 1) == SendFailed(ErrSendTimeout) ==> x.sends == TimeoutRetries + 1
    // the last receive decides the reply, as getEvt reports a receive; a timeout only at the fourth
    ensures |x.calls| > 1 + x.sends ==> x.reply == GetEvt(peer.recv(|x.calls| - 2 - x.sends))
    ensures |x.calls| > 1 + x.sends && peer.recv(|x.calls| - 2 - x.sends) == RecvFailed(ErrRecvTimeout) ==>
              |x.calls| - 1 - x.sends == TimeoutRetries + 1
    // the counters count the timeouts of each kind
    ensures x.sendTimeouts == x.sends - (if peer.send(x.sends - 1) == SendFailed(ErrSendTimeout) then 0 else 1)
    ensures x.recvTimeouts ==
              if |x.calls| == 1 + x.sends then 0
              else |x.calls| - 1 - x.sends - (if peer.recv(|x.calls| - 2 - x.sends) == RecvFailed(ErrRecvTimeout) then 0 else 1)
  {
    var sends := SendTries(data, peer, 0);
    if sends.failure.Some? then
      assert [Encode] + sends.calls + Recvs(peer, 0, 0) == [Encode] + sends.calls;
      Exchange(Failure(sends.failure.value), [Encode] + sends.calls, |sends.calls|, sends.timeouts, 0)
    else
      var recvs := RecvTries(peer, 0);
      Exchange(GetEvt(peer.recv(|recvs.calls| - 1)), [Encode] + sends.calls + recvs.calls, |sends.calls|,
               sends.timeouts, recvs.timeouts)
  }

  /**
    `sendCmd` with bounded retries: the command is encoded once, and an
    encoding failure is returned before any send.
   */
  function SendCmdRetrying(enc: EncodeOutcome, peer: Peer): (x: Exchange)
    ensures enc.EncodeFailed? ==> x == Exchange(Failure(enc.err), [Encode], 0, 0, 0)
    ensures enc.Encoded? ==> x == RetryExchange(enc.data, peer)
  {
    match enc
    case EncodeFailed(e) => Exchange(Failure(e), [Encode], 0, 0, 0)
    case Encoded(data) => RetryExchange(data, peer)
  }

  /** A peer whose every `Send` and every `Recv` times out. */
  function Unresponsive(): Peer {
    Peer(k => SendFailed(ErrSendTimeout), k => RecvFailed(ErrRecvTimeout))
  }

  /**
    Against a peer that never answers, the code as written reports success
    with an empty reply after one `Send` and one `Recv`; the retrying loop
    sends four times and reports the send timeout.
   */
  lemma UnresponsivePeerIsReportedAsEmptyReply(data: Bytes)
    ensures SendCmd(Encoded(data), Unresponsive()) ==
            Exchange(Success(""), [Encode, Send(data, SendFailed(ErrSendTimeout)), Recv(RecvFailed(ErrRecvTimeout))], 1, 1, 1)
    ensures SendCmdRetrying(Encoded(data), Unresponsive()).reply == Failure(ErrSendTimeout)
    ensures SendCmdRetrying(Encoded(data), Unresponsive()).sends == TimeoutRetries + 1
  {
    var x := SendCmdRetrying(Encoded(data), Unresponsive());
    assert Unresponsive().send(x.sends - 1) == SendFailed(ErrSendTimeout);
  }

  /** When neither the first `Send` nor the first `Recv` times out, the code as written and the retrying loop agree. */
  lemma AgreeWithoutTimeouts(enc: EncodeOutcome, peer: Peer)
    requires peer.send(0) != SendFailed(ErrSendTimeout)
    requires peer.recv(0) != RecvFailed(ErrRecvTimeout)
    ensures SendCmd(enc, peer) == SendCmdRetrying(enc, peer)
  {
    if enc.Encoded? {
      var x := SendCmdRetrying(enc, peer);
      var y := SendCmd(enc, peer);
      assert x.sends == 1;
      if peer.send(0) == Sent {
        assert |x.calls| == 3;
        assert x.calls == [Encode, Send(enc.data, peer.send(0)), Recv(peer.recv(0))];
      } else {
        assert x.calls == [Encode, Send(enc.data, peer.send(0))];
      }
    }
  }

  /**
    A peer that accepts the command but lets the first two receives time
    out: the retrying loop sends once, receives three times, and returns
    the third reply verbatim.
   */
  lemma SlowReplyIsRetried(data: Bytes, reply: Bytes)
    ensures var peer := Peer(k => Sent, k => if k < 2 then RecvFailed(ErrRecvTimeout) else Received(reply));
            var x := SendCmdRetrying(Encoded(data), peer);
            && x.reply == Success(AsString(reply)) && x.recvTimeouts == 2
            && x.sends == 1 && |x.calls| == 5
  {
    var peer := Peer(k => Sent, k => if k < 2 then RecvFailed(ErrRecvTimeout) else Received(reply));
    var x := SendCmdRetrying(Encoded(data), peer);
    var n := x.sends;
    assert n == 1;
    var m := |x.calls| - 1 - n;
    assert m == 3;
  }
}

=== FILE: outcomes.dfy ===
/**
  Failure-carrying values shared by the models of the three source files:
  Go's `(value, error)` pairs become a `Result`, a bare `error` return
  becomes an `Outcome`, and a value that may be absent (a nil socket, an
  unset environment variable) becomes an `Option`.
 */
module Outcomes {

  /** A value that may be missing. */
  datatype Option<+T> = None | Some(value: T)

  /** Either the value a call produced or the error it returned. */
  datatype Result<+T, +E> = Success(value: T) | Failure(error: E) {

    /** The error, if any, as an `Outcome`. */
    function ToOutcome(): (o: Outcome<E>)
      ensures o.Pass? <==> Success?
      ensures o.Fail? ==> o.error == error
    {
      match this
      case Success(_) => Pass
      case Failure(e) => Fail(e)
    }
  }

  /** The result of a call that returns only an error. */
  datatype Outcome<+E> = Pass | Fail(error: E)
}

=== FILE: profile.dfy ===
/**
  The profile session of master/commands/profile.go (`OnProfile`).

  A session builds the Docker client, inspects the "fat" image, starts the
  instrumented container, optionally starts the HTTP probe, waits for the
  continue-after trigger, then stops monitoring, shuts the container down
  and processes what the container produced. Each collaborator is reduced
  to whether its call fails (`World.failing`), and each blocking wait to
  whether its trigger ever arrives (`World.delivered`; the timer always
  does). `utils.FailOn` and `utils.Fail` end the session (`Aborted`);
  `utils.WarnOn` records a warning and carries on.
 */
module Profile {
  import opened Outcomes
  import DockerClient

  /** What the continue channel is fed by: the caller's channel, or the HTTP probe's done channel. */
  datatype ContinueSource = CallerChannel | ProbeDone

  /** The event a continue-after wait blocks on. */
  datatype Trigger =
    | StdinLine                          // a line read from standard input
    | ContinueChan(source: ContinueSource)  // a value on continueAfter.ContinueChan
    | TimerElapsed(seconds: int)         // time.After with the configured timeout

  /** The steps of a session, in the order the source can reach them. */
  datatype Step =
    | NewDockerClient
    | NewImageInspector
    | InspectImage
    | PrepareSlimDirs
    | ProcessImageData
    | NewContainerInspector
    | RunContainer
    | NewHttpProbe
    | StartHttpProbe
    | AwaitContinue(trigger: Trigger)
    | FinishMonitoring
    | ShutdownContainer
    | ProcessContainerData
    | RemoveArtifacts

  /** The part of a session each step belongs to, in the order the parts run. */
  function StageOf(step: Step): nat {
    match step
    case NewDockerClient => 0
    case NewImageInspector | InspectImage | PrepareSlimDirs | ProcessImageData | NewContainerInspector | RunContainer => 1
    case NewHttpProbe | StartHttpProbe => 2
    case AwaitContinue(_) => 3
    case FinishMonitoring | ShutdownContainer | ProcessContainerData | RemoveArtifacts => 4
  }

  datatype Cause =
    | ClientFailed(fatal: DockerClient.Fatal)
    | StepFailed(step: Step)
    | UnknownContinueMode(mode: string)

  /** `Blocked` is a wait whose trigger never arrives: the session never gets past it. */
  datatype Status = Done | Aborted(cause: Cause) | Blocked(trigger: Trigger)

  /** The steps taken (the failing one last), the steps whose errors were only warned about, and how it ended. */
  datatype Session = Session(trace: seq<Step>, warnings: seq<Step>, status: Status)

  /** The fields of `config.ContinueAfter` that `OnProfile` reads, other than the channel. */
  datatype ContinueAfter = ContinueAfter(mode: string, timeoutSeconds: int)

  /** The continue-after modes the `switch` recognises. */
  const KnownModes: set<string> := {"enter", "signal", "timeout", "probe"}

  /** `doRmFileArtifacts` is a local constant that is never set. */
  const DoRmFileArtifacts: bool := false

  /** `"probe" == continueAfter.Mode` switches probing on; nothing switches it off. */
  function ProbeOn(doHttpProbe: bool, mode: string): (r: bool)
    ensures doHttpProbe ==> r
    ensures mode == "probe" ==> r
    ensures !doHttpProbe && mode != "probe" ==> !r
  {
    doHttpProbe || mode == "probe"
  }

  /** What `continueAfter.ContinueChan` is fed by when the wait starts. */
  function ContinueSourceFor(probeOn: bool): ContinueSource {
    if probeOn then ProbeDone else CallerChannel
  }

  /**
    The `switch` on the mode: which trigger the session waits for. Probing
    only changes what feeds the continue channel, never the mode.
   */
  function SelectWait(ca: ContinueAfter, probeOn: bool): (r: Result<Trigger, Cause>)
    ensures r.Failure? <==> ca.mode !in KnownModes
    ensures r.Failure? ==> r.error == UnknownContinueMode(ca.mode)
    ensures ca.mode == "enter" ==> r == Success(StdinLine)
    ensures ca.mode == "timeout" ==> r == Success(TimerElapsed(ca.timeoutSeconds))
    ensures r == Success(ContinueChan(ProbeDone)) <==> probeOn && ca.mode in {"signal", "probe"}
    ensures r == Success(ContinueChan(CallerChannel)) <==> !probeOn && ca.mode in {"signal", "probe"}
  {
    if ca.mode == "enter" then Success(StdinLine)
    else if ca.mode == "signal" then Success(ContinueChan(ContinueSourceFor(probeOn)))
    else if ca.mode == "timeout" then Success(TimerElapsed(ca.timeoutSeconds))
    else if ca.mode == "probe" then Success(ContinueChan(ContinueSourceFor(probeOn)))
    else Failure(UnknownContinueMode(ca.mode))
  }

  /** `time.After` always fires; the other triggers only if they are delivered. */
  predicate Fires(t: Trigger, delivered: set<Trigger>) {
    t.TimerElapsed? || t in delivered
  }

  /** The arguments of `OnProfile` that decide its control flow. */
  datatype Args = Args(client: DockerClient.Config, doHttpProbe: bool, continueAfter: ContinueAfter)

  /** The collaborators' behaviour: the client's environment, the steps that fail, the triggers that arrive. */
  datatype World = World(client: DockerClient.World, failing: set<Step>, delivered: set<Trigger>)

  /** The setup steps whose failure is fatal, from the image inspector to the probe. */
  predicate SetupSucceeds(probeOn: bool, failing: set<Step>) {
    && NewImageInspector !in failing
    && InspectImage !in failing
    && ProcessImageData !in failing
    && NewContainerInspector !in failing
    && RunContainer !in failing
    && (probeOn ==> NewHttpProbe !in failing)
  }

  /** The session ends at the failing `step`, taken after `before`. */
  function Stop(before: seq<Step>, step: Step): Session {
    Session(before + [step], [], Aborted(StepFailed(step)))
  }

  /** The steps from the image inspector to the running container, in source order. */
  const ContainerStart: seq<Step> :=
    [NewImageInspector, InspectImage, PrepareSlimDirs, ProcessImageData, NewContainerInspector, RunContainer]

  /** The image inspection and the container start, each checked with `utils.FailOn`. */
  function StartContainer(failing: set<Step>): (r: Session)
    ensures r.warnings == []
    ensures r.status == Done || (r.status.Aborted? && r.status.cause.StepFailed?)
    // the steps taken are always a prefix of the fixed order, all of it on success
    ensures r.status == Done <==>
              && NewImageInspector !in failing && InspectImage !in failing && ProcessImageData !in failing
              && NewContainerInspector !in failing && RunContainer !in failing
    ensures r.trace <= ContainerStart
    ensures forall st :: st in r.trace ==> StageOf(st) == 1
    ensures r.status == Done ==> r.trace == ContainerStart
    // an abort names a failing step other than the unchecked `PrepareSlimDirs`, taken last
    ensures r.status.Aborted? ==>
              && 0 < |r.trace| && r.status.cause.step in failing && r.status.cause.step != PrepareSlimDirs
              && r.trace[|r.trace| - 1] == r.status.cause.step
    // the failing step is the first checked one that fails: every step before it passed, or went unchecked
    ensures r.status.Aborted? ==> forall i :: 0 <= i < |r.trace| - 1 ==> r.trace[i] !in failing || r.trace[i] == PrepareSlimDirs
    ensures RunContainer in r.trace <==> r.status == Done || r.status == Aborted(StepFailed(RunContainer))
  {
    if NewImageInspector in failing then Stop([], NewImageInspector)
    else if InspectImage in failing then Stop([NewImageInspector], InspectImage)
    else if ProcessImageData in failing then Stop([NewImageInspector, InspectImage, PrepareSlimDirs], ProcessImageData)
    else if NewContainerInspector in failing then
      Stop([NewImageInspector, InspectImage, PrepareSlimDirs, ProcessImageData], NewContainerInspector)
    else if RunContainer in failing then
      Stop([NewImageInspector, InspectImage, PrepareSlimDirs, ProcessImageData, NewContainerInspector], RunContainer)
    else
      Session([NewImageInspector, InspectImage, PrepareSlimDirs, ProcessImageData, NewContainerInspector, RunContainer], [], Done)
  }

  /** The outcome of `dockerclient.New`, whose fatal errors end the session. */
  function ClientStep(client: Result<DockerClient.Construction, DockerClient.Fatal>): (r: Session)
    ensures r.trace == [NewDockerClient] && r.warnings == []
    ensures forall st :: st in r.trace ==> StageOf(st) == 0
    ensures r.status == Done <==> client.Success?
    ensures r.status != Done ==> r.status == Aborted(ClientFailed(client.error))
  {
    if client.Failure? then Session([NewDockerClient], [], Aborted(ClientFailed(client.error)))
    else Session([NewDockerClient], [], Done)
  }

  /** When probing is on, the probe is created (checked with `utils.FailOn`) and started. */
  function ProbeStep(probeOn: bool, failing: set<Step>): (r: Session)
    ensures !probeOn ==> r == Session([], [], Done)
    ensures forall st :: st in r.trace ==> StageOf(st) == 2
    ensures probeOn ==> 0 < |r.trace| && r.trace[0] == NewHttpProbe
    ensures r.status == Done <==> !probeOn || NewHttpProbe !in failing
    ensures r.status == Done ==> r.trace == if probeOn then [NewHttpProbe, StartHttpProbe] else []
    ensures r.status != Done ==> r == Stop([], NewHttpProbe)
  {
    if !probeOn then Session([], [], Done)
    else if NewHttpProbe in failing then Stop([], NewHttpProbe)
    else Session([NewHttpProbe, StartHttpProbe], [], Done)
  }

  /** The `switch` on the mode and the wait it selects; an unknown mode is fatal before any wait. */
  function WaitStep(ca: ContinueAfter, probeOn: bool, delivered: set<Trigger>): (r: Session)
    ensures r.warnings == []
    ensures forall st :: st in r.trace ==> StageOf(st) == 3
    ensures ca.mode !in KnownModes <==> r == Session([], [], Aborted(UnknownContinueMode(ca.mode)))
    ensures ca.mode in KnownModes ==> r.trace == [AwaitContinue(SelectWait(ca, probeOn).value)]
    ensures r.status == Done <==> ca.mode in KnownModes && Fires(SelectWait(ca, probeOn).value, delivered)
    // a known mode whose trigger never arrives blocks on exactly that trigger
    ensures r.status.Blocked? <==> ca.mode in KnownModes && !Fires(SelectWait(ca, probeOn).value, delivered)
    ensures r.status.Blocked? ==>
              && r.status.trigger == SelectWait(ca, probeOn).value
              && !r.status.trigger.TimerElapsed? && r.status.trigger !in delivered
  {
    match SelectWait(ca, probeOn)
    case Failure(cause) => Session([], [], Aborted(cause))
    case Success(t) =>
      if Fires(t, delivered) then Session([AwaitContinue(t)], [], Done)
      else Session([AwaitContinue(t)], [], Blocked(t))
  }

  /**
    After the wait: monitoring stops, the container is shut down (an error
    is only a warning), and the container's data is processed (an error is
    fatal). Artifact removal is switched off.
   */
  function TeardownStep(failing: set<Step>): (r: Session)
    ensures r.trace == [FinishMonitoring, ShutdownContainer, ProcessContainerData]
    ensures forall st :: st in r.trace ==> StageOf(st) == 4
    ensures r.warnings == if ShutdownContainer in failing then [ShutdownContainer] else []
    ensures r.status == Done <==> ProcessContainerData !in failing
    ensures r.status != Done ==> r.status == Aborted(StepFailed(ProcessContainerData))
  {
    var tornDown := [FinishMonitoring, ShutdownContainer, ProcessContainerData];
    var warnings := if ShutdownContainer in failing then [ShutdownContainer] else [];
    if ProcessContainerData in failing then
      Session(tornDown, warnings, Aborted(StepFailed(ProcessContainerData)))
    else if DoRmFileArtifacts then
      Session(tornDown + [RemoveArtifacts], warnings + if RemoveArtifacts in failing then [RemoveArtifacts] else [], Done)
    else
      Session(tornDown, warnings, Done)
  }

  /** Runs `next` only if `first` finished; the traces and warnings add up. */
  function Then(first: Session, next: Session): (r: Session)
    ensures first.status != Done ==> r == first
    ensures first.status == Done ==>
              r == Session(first.trace + next.trace, first.warnings + next.warnings, next.status)
  {
    if first.status != Done then first
    else Session(first.trace + next.trace, first.warnings + next.warnings, next.status)
  }

  /** The stages run one after another, each only if all before it finished. */
  function Chain(stages: seq<Session>): Session
    decreases |stages|
  {
    if |stages| == 0 then Session([], [], Done)
    else Then(stages[0], Chain(stages[1..]))
  }

  /** Each stage takes only the steps of its own part, counting parts from `first`. */
  ghost predicate Tagged(stages: seq<Session>, first: nat) {
    forall i, st :: 0 <= i < |stages| && st in stages[i].trace ==> StageOf(st) == first + i
  }

  /** A chain finishes exactly when every stage does. */
  lemma {:induction false} ChainFinishes(stages: seq<Session>)
    ensures Chain(stages).status == Done <==> forall i :: 0 <= i < |stages| ==> stages[i].status == Done
    decreases |stages|
  {
    if |stages| > 0 {
      ChainFinishes(stages[1..]);
      assert forall i :: 1 <= i < |stages| ==> stages[i] == stages[1..][i - 1];
    }
  }

  /** A chain ends the way its first unfinished stage does. */
  lemma {:induction false} ChainStopsAt(stages: seq<Session>, k: nat)
    requires k < |stages| && stages[k].status != Done
    requires forall i :: 0 <= i < k ==> stages[i].status == Done
    ensures Chain(stages).status == stages[k].status
    decreases k
  {
    if k > 0 {
      assert forall i :: 0 <= i < k - 1 ==> stages[1..][i] == stages[i + 1];
      ChainStopsAt(stages[1..], k - 1);
    }
  }

  /** An unfinished chain names its first unfinished stage, whose ending it shares. */
  lemma FirstUnfinished(stages: seq<Session>) returns (k: nat)
    requires Chain(stages).status != Done
    ensures k < |stages| && stages[k].status != Done
    ensures forall i :: 0 <= i < k ==> stages[i].status == Done
    ensures Chain(stages).status == stages[k].status
    decreases |stages|
  {
    if stages[0].status != Done {
      k := 0;
    } else {
      var rest := FirstUnfinished(stages[1..]);
      k := rest + 1;
      assert forall i :: 1 <= i < k ==> stages[i] == stages[1..][i - 1];
    }
  }

  /**
    In a chain of tagged stages, a step was taken exactly when the stage
    it belongs to took it and every stage before that one finished.
   */
  lemma {:induction false} StepInChain(stages: seq<Session>, first: nat, step: Step)
    requires Tagged(stages, first)
    ensures step in Chain(stages).trace <==>
              && first <= StageOf(step) < first + |stages|
              && step in stages[StageOf(step) - first].trace
              && forall i :: 0 <= i < StageOf(step) - first ==> stages[i].status == Done
    decreases |stages|
  {
    if |stages| > 0 {
      assert Tagged(stages[1..], first + 1) by {
        forall i, st | 0 <= i < |stages[1..]| && st in stages[1..][i].trace
          ensures StageOf(st) == first + 1 + i
        {
          assert stages[1..][i] == stages[i + 1];
        }
      }
      StepInChain(stages[1..], first + 1, step);
      assert forall i :: 0 <= i < |stages| - 1 ==> stages[1..][i] == stages[i + 1];
      if step in stages[0].trace {
        assert StageOf(step) == first;
      }
    }
  }

  /** Five finished stages chain into their traces and warnings laid end to end. */
  lemma FiveFinished(a: Session, b: Session, c: Session, d: Session, e: Session)
    requires a.status == Done && b.status == Done && c.status == Done && d.status == Done && e.status == Done
    ensures Chain([a, b, c, d, e]) ==
              Session(a.trace + b.trace + c.trace + d.trace + e.trace,
                      a.warnings + b.warnings + c.warnings + d.warnings + e.warnings, Done)
  {
    assert [a, b, c, d, e][1..] == [b, c, d, e];
    assert [b, c, d, e][1..] == [c, d, e];
    assert [c, d, e][1..] == [d, e];
    assert [d, e][1..] == [e];
    assert [e][1..] == [];
    assert Chain([e]) == Session(e.trace + [], e.warnings + [], Done);
    assert Chain([d, e]) == Session(d.trace + Chain([e]).trace, d.warnings + Chain([e]).warnings, Done);
    assert Chain([c, d, e]) == Session(c.trace + Chain([d, e]).trace, c.warnings + Chain([d, e]).warnings, Done);
    assert Chain([b, c, d, e]) == Session(b.trace + Chain([c, d, e]).trace, b.warnings + Chain([c, d, e]).warnings, Done);
    assert e.trace + [] == e.trace && e.warnings + [] == e.warnings;
    assert a.trace + b.trace + c.trace + d.trace + e.trace == a.trace + (b.trace + (c.trace + (d.trace + e.trace)));
    assert a.warnings + b.warnings + c.warnings + d.warnings + e.warnings
        == a.warnings + (b.warnings + (c.warnings + (d.warnings + e.warnings)));
  }

  /** Five finished stages with the traces of a finished session chain into that session's trace. */
  lemma FinishedChain(a: Session, b: Session, c: Session, d: Session, e: Session, probeOn: bool, t: Trigger)
    requires a.status == Done && b.status == Done && c.status == Done && d.status == Done && e.status == Done
    requires a.trace == [NewDockerClient] && b.trace == ContainerStart
    requires c.trace == (if probeOn then [NewHttpProbe, StartHttpProbe] else [])
    requires d.trace == [AwaitContinue(t)]
    requires e.trace == [FinishMonitoring, ShutdownContainer, ProcessContainerData]
    requires a.warnings == [] && b.warnings == [] && c.warnings == [] && d.warnings == []
    ensures Chain([a, b, c, d, e]) == Session(SuccessTrace(probeOn, t), e.warnings, Done)
  {
    FiveFinished(a, b, c, d, e);
  }

  /** Five sessions, each taking only the steps of its own part, are tagged from the first part on. */
  lemma TaggedFive(a: Session, b: Session, c: Session, d: Session, e: Session)
    requires forall st :: st in a.trace ==> StageOf(st) == 0
    requires forall st :: st in b.trace ==> StageOf(st) == 1
    requires forall st :: st in c.trace ==> StageOf(st) == 2
    requires forall st :: st in d.trace ==> StageOf(st) == 3
    requires forall st :: st in e.trace ==> StageOf(st) == 4
    ensures Tagged([a, b, c, d, e], 0)
  {
  }

  /** The full trace of a session that reaches the end. */
  function SuccessTrace(probeOn: bool, t: Trigger): seq<Step> {
    [NewDockerClient] + ContainerStart
    + (if probeOn then [NewHttpProbe, StartHttpProbe] else [])
    + [AwaitContinue(t), FinishMonitoring, ShutdownContainer, ProcessContainerData]
  }

  /** The five stages of a session, each computed as if all before it had finished. */
  function Stages(args: Args, w: World): (stages: seq<Session>)
    ensures |stages| == 5 && Tagged(stages, 0)
  {
    var probeOn := ProbeOn(args.doHttpProbe, args.continueAfter.mode);
    var client := ClientStep(DockerClient.New(args.client, w.client).client);
    var container := StartContainer(w.failing);
    var probe := ProbeStep(probeOn, w.failing);
    var wait := WaitStep(args.continueAfter, probeOn, w.delivered);
    var teardown := TeardownStep(w.failing);
    TaggedFive(client, container, probe, wait, teardown);
    [client, container, probe, wait, teardown]
  }

  /** How each stage can end: only the wait can block, and each stage aborts with causes of its own kind. */
  lemma StageEndings(args: Args, w: World)
    ensures var stages := Stages(args, w);
            && (stages[0].status != Done ==> stages[0].status.Aborted? && stages[0].status.cause.ClientFailed?)
            && (stages[1].status != Done ==> stages[1].status.Aborted? && stages[1].status.cause.StepFailed?)
            && (stages[2].status != Done ==> stages[2].status.Aborted? && stages[2].status.cause.StepFailed?)
            && (stages[3].status.Aborted? <==> stages[3].status == Aborted(UnknownContinueMode(args.continueAfter.mode)))
            && (stages[3].status.Aborted? <==> args.continueAfter.mode !in KnownModes)
            && (stages[4].status != Done ==> stages[4].status == Aborted(StepFailed(ProcessContainerData)))
  {
  }

  /**
    `OnProfile`: build the client, run the setup steps, wait for the
    continue-after trigger, then tear down. A failing step up to and
    including `RunContainer` aborts; an unknown mode aborts after the
    container and any probe have started, without shutting the container
    down; a failed shutdown is only a warning.
   */
  function OnProfile(args: Args, w: World): (s: Session)
    ensures 0 < |s.trace| && s.trace[0] == NewDockerClient
  {
    Chain(Stages(args, w))
  }

  /** A session finishes exactly when every fatal check passes and the awaited trigger arrives. */
  lemma SessionFinishesExactly(args: Args, w: World)
    ensures OnProfile(args, w).status == Done <==>
              && DockerClient.New(args.client, w.client).client.Success?
              && SetupSucceeds(ProbeOn(args.doHttpProbe, args.continueAfter.mode), w.failing)
              && args.continueAfter.mode in KnownModes
              && Fires(SelectWait(args.continueAfter, ProbeOn(args.doHttpProbe, args.continueAfter.mode)).value, w.delivered)
              && ProcessContainerData !in w.failing
  {
    var stages := Stages(args, w);
    ChainFinishes(stages);
    assert (forall i :: 0 <= i < 5 ==> stages[i].status == Done) <==>
             stages[0].status == Done && stages[1].status == Done && stages[2].status == Done
             && stages[3].status == Done && stages[4].status == Done;
  }

  /** On success the steps run in one fixed order, and only a failed shutdown is warned about. */
  lemma FinishedSessionOrder(args: Args, w: World)
    requires OnProfile(args, w).status == Done
    ensures SelectWait(args.continueAfter, ProbeOn(args.doHttpProbe, args.continueAfter.mode)).Success?
    ensures OnProfile(args, w).trace ==
              SuccessTrace(ProbeOn(args.doHttpProbe, args.continueAfter.mode),
                           SelectWait(args.continueAfter, ProbeOn(args.doHttpProbe, args.continueAfter.mode)).value)
    ensures OnProfile(args, w).warnings == if ShutdownContainer in w.failing then [ShutdownContainer] else []
  {
    var stages := Stages(args, w);
    var probeOn := ProbeOn(args.doHttpProbe, args.continueAfter.mode);
    ChainFinishes(stages);
    assert stages[3].status == Done;
    FinishedChain(stages[0], stages[1], stages[2], stages[3], stages[4], probeOn, SelectWait(args.continueAfter, probeOn).value);
    assert stages == [stages[0], stages[1], stages[2], stages[3], stages[4]];
  }

  /** Artifact removal is switched off, so it never happens. */
  lemma ArtifactsAreKept(args: Args, w: World)
    ensures RemoveArtifacts !in OnProfile(args, w).trace
  {
    var stages := Stages(args, w);
    assert RemoveArtifacts !in stages[4].trace;
    StepInChain(stages, 0, RemoveArtifacts);
  }

  /**
    Once the client is built, a failing fatal setup step, from the image
    inspector to the probe, aborts the session at that step, and the
    container is never shut down.
   */
  lemma SetupFailureAborts(args: Args, w: World)
    requires DockerClient.New(args.client, w.client).client.Success?
    requires !SetupSucceeds(ProbeOn(args.doHttpProbe, args.continueAfter.mode), w.failing)
    ensures OnProfile(args, w).status.Aborted? && OnProfile(args, w).status.cause.StepFailed?
    ensures OnProfile(args, w).status.cause.step in w.failing
    ensures OnProfile(args, w).status.cause.step != PrepareSlimDirs
    ensures ShutdownContainer !in OnProfile(args, w).trace
  {
    var stages := Stages(args, w);
    assert stages[0].status == Done;
    StepInChain(stages, 0, ShutdownContainer);
    if stages[1].status != Done {
      ChainStopsAt(stages, 1);
    } else {
      assert stages[2].status != Done;
      ChainStopsAt(stages, 2);
    }
  }

  /** A fatal client error ends the session before anything else. */
  lemma ClientFailureEndsAtOnce(args: Args, w: World)
    requires OnProfile(args, w).status.Aborted? && OnProfile(args, w).status.cause.ClientFailed?
    ensures OnProfile(args, w).trace == [NewDockerClient]
  {
    var stages := Stages(args, w);
    var k := FirstUnfinished(stages);
    assert k == 0;
    assert Chain(stages) == stages[0];
  }

  /** When a step checked before `RunContainer` fails, no container is started. */
  lemma EarlyFailureStartsNoContainer(args: Args, w: World)
    requires || NewImageInspector in w.failing || InspectImage in w.failing
             || ProcessImageData in w.failing || NewContainerInspector in w.failing
    ensures RunContainer !in OnProfile(args, w).trace
  {
    var stages := Stages(args, w);
    StepInChain(stages, 0, RunContainer);
  }

  /** An unknown mode is detected only once the container (and any probe) runs, and skips the shutdown. */
  lemma UnknownModeSkipsShutdown(args: Args, w: World)
    requires OnProfile(args, w).status.Aborted? && OnProfile(args, w).status.cause.UnknownContinueMode?
    ensures RunContainer in OnProfile(args, w).trace
    ensures ProbeOn(args.doHttpProbe, args.continueAfter.mode) ==> StartHttpProbe in OnProfile(args, w).trace
    ensures ShutdownContainer !in OnProfile(args, w).trace
  {
    var stages := Stages(args, w);
    var k := FirstUnfinished(stages);
    StageEndings(args, w);
    assert k == 3;
    StepInChain(stages, 0, RunContainer);
    StepInChain(stages, 0, StartHttpProbe);
    StepInChain(stages, 0, ShutdownContainer);
  }

  /** The shutdown's outcome never decides the session; the container's data is processed after it. */
  lemma ShutdownIsOnlyWarnedAbout(args: Args, w: World)
    requires ShutdownContainer in OnProfile(args, w).trace
    ensures ProcessContainerData in OnProfile(args, w).trace
    ensures OnProfile(args, w).status == Done || OnProfile(args, w).status == Aborted(StepFailed(ProcessContainerData))
  {
    var stages := Stages(args, w);
    StepInChain(stages, 0, ShutdownContainer);
    StepInChain(stages, 0, ProcessContainerData);
    if stages[4].status != Done {
      ChainStopsAt(stages, 4);
    } else {
      ChainFinishes(stages);
    }
  }

  /** A session blocks only on the selected wait, when its trigger is undelivered and not the timer. */
  lemma OnlyUndeliveredTriggersBlock(args: Args, w: World)
    requires OnProfile(args, w).status.Blocked?
    ensures SelectWait(args.continueAfter, ProbeOn(args.doHttpProbe, args.continueAfter.mode)).Success?
    ensures OnProfile(args, w).status.trigger == SelectWait(args.continueAfter, ProbeOn(args.doHttpProbe, args.continueAfter.mode)).value
    ensures !OnProfile(args, w).status.trigger.TimerElapsed?
    ensures OnProfile(args, w).status.trigger !in w.delivered
  {
    var k := FirstUnfinished(Stages(args, w));
  }

  /** The probe is created only when asked for, by the flag or by the probe mode. */
  lemma ProbeOnlyWhenAsked(args: Args, w: World)
    requires NewHttpProbe in OnProfile(args, w).trace
    ensures ProbeOn(args.doHttpProbe, args.continueAfter.mode)
  {
    StepInChain(Stages(args, w), 0, NewHttpProbe);
  }
}
